=== FILE: README.md ===
# Pomodoro timer, todo list, weather and counter pages — a Dafny model

This project models the state logic of four pages of a small Angular
single-page application, as pure functions over immutable Dafny datatypes,
and proves properties of them.

- **Pomodoro timer** (`Timer`, `Persistence`). A countdown alternates between
  a work phase and a break phase. `completed` counts finished work phases,
  and a one-second ticker drives the countdown while the timer runs. After
  every change the state is saved. When the page opens, the saved record is
  type-checked as a whole and its values are clamped. If the timer was
  running when it was saved, the loader fast-forwards through the seconds
  that passed while the page was closed, then starts the ticker again.
- **Todo list** (`Todos`, with `Seqs` and `Text`). Items can be added,
  toggled, renamed, removed, cleared when done, and all toggled at once. A
  filtered view selects items by state and by keyword, and the page shows
  counts of left and completed items.
- **Weather** (`Weather`). A weather code is classified into a display
  theme. Temperatures are shown in Celsius or converted to Fahrenheit, and a
  city is chosen from a fixed list.
- **Counter** (`Counter`). A count moves up and down by one from buttons and
  arrow keys.

The project's modules:

- `Wrappers` holds `Option`.
- `Text` holds JavaScript's `trim`, ASCII `toLowerCase`, `includes`,
  number-to-string and `padStart`.
- `Seqs` holds `Array.prototype.find` as `FindFirst`, and
  `Array.prototype.filter` as `Keep` with its order and multiplicity lemmas.

Modelling choices:

- In the timer, `running` also stands for "the ticker is subscribed". `start`
  and `pause` are the only writers of either, and they always set both.
- `Tick` is the ticker's callback body. The scheduler that calls it every
  second while running is not modelled.
- The stored payload is an `Option<Record>`. `None` means nothing is stored,
  or the text does not parse into an object. Each of the record's eight
  fields is an `Option<Json>`, where `None` means the field is absent.
  `Date.now()` is an integer parameter.
- `Math.floor(ms / 1000)` is Dafny's `/` with a positive divisor, which
  rounds down just as `Math.floor` does.

Behaviour as the code has it, which the model follows:

- **A malformed saved record changes nothing.** If any field is missing or
  has the wrong type, the loader returns before it writes anything. The
  current state stays as it is; nothing is reset to defaults.
- **Loaded values are clamped, not copied verbatim.** Durations are raised to
  at least 1 minute, and `completed` and `remainingSec` to at least 0. The
  saved `running` flag is never copied. It only decides whether to catch up
  and start.
- **`remainingSec` can exceed the length of the current phase.** Editing a
  duration while the timer runs leaves the countdown alone. The loader
  accepts any non-negative countdown. `Timer.EditWhileRunningOverrunsPhase`
  gives a concrete state. What holds everywhere is `Timer.Valid`: durations
  of at least one minute and no negative counters.
- **Live ticking takes one second longer per phase than catch-up.** The live
  ticker shows `00:00` for one tick before it switches phase, so a phase with
  `k` seconds left ends after `k + 1` ticks. The catch-up switches phase
  after exactly `k` seconds (`Persistence.CatchUpSkipsZeroTick`). Both are
  modelled as written.
- **Resume scenario.** Work is 25 minutes and break 5, with 10 seconds of
  work left, reopened 330 seconds later. The result is the work phase with
  1480 seconds left, one more completed pomodoro, and the ticker running.

## Model

| member | source | states |
|---|---|---|
| Timer.InitialIsValid | src/app/time/time.component.ts:28-38 | The initial timer (25/5 minutes, work phase, full countdown, paused, notifications on) satisfies the state invariant and starts with a full work phase |
| Timer.SwitchPhase | src/app/time/time.component.ts:111-122 | Enters the other phase with exactly that phase's full length on the countdown, adds one to `completed` only when leaving work, changes no other field, keeps the invariant and leaves at least 60 seconds on the countdown |
| Timer.Tick | src/app/time/time.component.ts:83-87 | With time left, a tick removes exactly one second and changes nothing else; at zero it switches phase; it keeps the invariant and the bound by the phase length |
| Timer.Start | src/app/time/time.component.ts:79-89 | Afterwards the timer runs; nothing else changes, so starting a running timer changes nothing and adds no second ticker |
| Timer.Pause | src/app/time/time.component.ts:91-95 | Afterwards the timer is paused and nothing else has changed |
| Timer.StartIdempotent | src/app/time/time.component.ts:79-81 | Starting twice is starting once; starting a running timer is a no-op |
| Timer.PauseIdempotent | src/app/time/time.component.ts:91-95 | Pausing twice is pausing once |
| Timer.Reset | src/app/time/time.component.ts:97-101 | Paused, in the work phase with a full countdown; durations, `completed` and the notification preference are kept |
| Timer.ResetSettingsToDefaults | src/app/time/time.component.ts:103-109 | The result is the initial timer except that `completed` is kept |
| Timer.NumberOr | src/app/time/time.component.ts:127 | A field that reads as NaN or zero falls back to the previous value; any other number is taken |
| Timer.UpdateWork | src/app/time/time.component.ts:125-130 | Work minutes are at least 1 afterwards; NaN and 0 keep the previous valid value; the countdown becomes the new length only when paused in the work phase; no other field changes |
| Timer.UpdateBreak | src/app/time/time.component.ts:132-137 | The same for break minutes, with the countdown following only when paused in the break phase |
| Timer.SetNotify | src/app/time/time.component.ts:139-142 | The notification preference becomes the checkbox state and nothing else changes |
| Timer.EditWhileRunningOverrunsPhase | src/app/time/time.component.ts:129 | A concrete running timer within its phase length leaves it once its duration is shortened |
| Timer.TicksCountDown | src/app/time/time.component.ts:82-88 | `n` ticks with at least `n` seconds left only subtract `n` seconds |
| Timer.PhaseEndsOneTickAfterZero | src/app/time/time.component.ts:83-87 | After `k` ticks a countdown of `k` shows zero in the same phase; the next tick switches phase |
| Timer.MinutesPart | src/app/time/time.component.ts:44 | `Math.floor(sec / 60)`: the whole minutes, so minutes times 60 is at most the countdown and less than 60 below it |
| Timer.SecondsPart | src/app/time/time.component.ts:45 | For a non-negative countdown the seconds are in 0..59 and minutes times 60 plus seconds is the countdown; for a negative one, JavaScript's `%` gives a non-positive remainder |
| Timer.MinutesText | src/app/time/time.component.ts:44 | At least two characters; for a countdown that is not negative, a digit string whose value is the whole minutes, padded with zeros to two characters and no further (a leading zero only on a two-character text) |
| Timer.SecondsText | src/app/time/time.component.ts:45 | At least two characters; for a countdown that is not negative, exactly two digits whose value is the seconds within the minute |
| Timer.DisplayRoundTrip | src/app/time/time.component.ts:44-45 | The two displayed strings are decimal digits, the seconds exactly two and the minutes at least two, and reading them back as minutes times 60 plus seconds gives the countdown |
| Persistence.Persist | src/app/time/time.component.ts:56-68 | The saved record has all eight fields, each with the type the loader checks for |
| Persistence.Decode | src/app/time/time.component.ts:186-195 | A record is accepted exactly when all eight fields are present with the right type, and then every value is read from its own field |
| Persistence.Restore | src/app/time/time.component.ts:197-202 | Durations are raised to at least 1, `completed` and the countdown to at least 0, phase and preference are copied, `running` is not; the result satisfies the invariant |
| Persistence.CatchUp | src/app/time/time.component.ts:207-216 | A gap of zero or less changes nothing; a gap shorter than the countdown only subtracts it; a gap equal to it switches phase; at a zero countdown a positive gap switches phase before any of it is spent; durations, preference and `running` are kept, `completed` never decreases, and a positive gap leaves time on the countdown |
| Persistence.CatchUpLoop | src/app/time/time.component.ts:206-216 | The loader's while loop computes the recursive catch-up for every gap |
| Persistence.ElapsedSeconds | src/app/time/time.component.ts:206 | `Math.floor((now - lastTickAt) / 1000)`: the largest whole number of seconds not exceeding the milliseconds elapsed, negative for a stamp in the future |
| Persistence.Load | src/app/time/time.component.ts:178-218 | No stored record, or one failing the type check, leaves the state unchanged; otherwise the result satisfies the invariant, has the clamped durations and the saved preference, runs exactly when it ran before or was saved running, equals the restored record when it was saved paused, and when it was saved running equals the restored record caught up over the whole seconds since the stamp and started |
| Persistence.CatchUpAdditive | src/app/time/time.component.ts:207-216 | Catching up on two gaps in turn equals catching up on their sum |
| Persistence.CatchUpMatchesTicks | src/app/time/time.component.ts:205-216 | Before the first phase boundary, catching up on `n` seconds equals `n` live ticks |
| Persistence.CatchUpSkipsZeroTick | src/app/time/time.component.ts:207-216 | Catching up on a whole countdown equals one tick more than the countdown of live ticking, and differs from that many ticks |
| Persistence.ResumeScenario | src/app/time/time.component.ts:205-218 | Work 25 and break 5, saved running with 10 seconds of work left, loaded 330 seconds later: work phase, 1480 seconds left, one more completed, running |
| Persistence.PersistLoadPaused | src/app/time/time.component.ts:56-68 | A valid paused timer saved and loaded into a paused component comes back equal in every field |
| Persistence.PersistLoadRunning | src/app/time/time.component.ts:205-218 | A valid running timer saved and loaded into any state comes back caught up on the whole seconds since it was saved |
| Persistence.PersistLoadSameSecond | src/app/time/time.component.ts:206 | Loaded within the same second it was saved, a timer comes back unchanged except that it runs if the component already ran |
| Text.TrimStart | src/app/todo/todo.component.ts:50 | The result is the suffix after a run of white space and does not start with white space; it is empty exactly when the input is all white space, and text that starts with a non-space is kept whole |
| Text.TrimEnd | src/app/todo/todo.component.ts:50 | The result is the prefix before a run of white space and does not end with white space; it is empty exactly when the input is all white space, and text that ends with a non-space is kept whole |
| Text.Trim | src/app/todo/todo.component.ts:50 | The result is a slice of the input with only white space before and after it, and no white space at either end; it is empty exactly when the input is all white space; already trimmed text is unchanged |
| Text.Lower | src/app/todo/todo.component.ts:36 | Same length; each ASCII capital becomes its small letter and every other character is unchanged |
| Text.NatToDecimal | src/app/time/time.component.ts:44-45 | The numeral is non-empty decimal digits without a leading zero, and its value is the number |
| Text.IntToString | src/app/time/time.component.ts:44-45 | A non-negative number gives its decimal digits without a leading zero; a negative one gives a minus sign followed by the digits of its magnitude |
| Text.PadStart | src/app/time/time.component.ts:44-45 | The result has the requested length or more, ends with the input, and is filled in front |
| Seqs.Keep | src/app/todo/todo.component.ts:38-42 | The filtered list is no longer than the input, and each element satisfies the predicate and comes from the input |
| Seqs.FindFirst | src/app/todo/todo.component.ts:64 | `find`: the position of the first element passing the test, or none exactly when no element passes; used for items by id and for cities by name |
| Seqs.KeepIsSubseq | src/app/todo/todo.component.ts:38-42 | The filtered list is a subsequence of the input |
| Seqs.KeepAppend | src/app/todo/todo.component.ts:38-42 | Filtering a concatenation concatenates the filtered parts, so relative order is preserved |
| Seqs.KeepMultiplicity | src/app/todo/todo.component.ts:38-42 | A matching value occurs in the result as often as in the input, a non-matching value never |
| Todos.CountsPartition | src/app/todo/todo.component.ts:44-45 | Left plus completed is the length of the list |
| Todos.LeftCount | src/app/todo/todo.component.ts:44 | The number of items not done: at most the list length, and zero exactly when every item is done |
| Todos.CompletedCount | src/app/todo/todo.component.ts:45 | The number of items done: at most the list length, and zero exactly when no item is done |
| Todos.AllChecked | src/app/todo/todo.component.ts:46 | The check-all flag holds exactly when the list is non-empty and every item is done |
| Todos.Add | src/app/todo/todo.component.ts:49-57 | A blank trimmed title changes nothing, not even the field; otherwise exactly one new undone item with the trimmed title is appended, earlier items are kept and the field is cleared; stored titles stay trimmed and non-blank |
| Todos.AddCounts | src/app/todo/todo.component.ts:49-57 | A successful add raises the left count by one and leaves the completed count |
| Todos.Toggle | src/app/todo/todo.component.ts:59-61 | Same length and order; only `done` changes, and only on items with the given id |
| Todos.ToggleTwice | src/app/todo/todo.component.ts:59-61 | Toggling an id twice restores the list |
| Todos.Remove | src/app/todo/todo.component.ts:83-85 | No item with the id is left, the rest are kept with their multiplicity and in order, and an absent id changes nothing |
| Todos.ClearCompleted | src/app/todo/todo.component.ts:87-89 | Exactly the not-done items remain, in order; completed count becomes 0 and left count is unchanged |
| Todos.ToggleAll | src/app/todo/todo.component.ts:91-94 | Same items in the same order, all with `done` set to the negation of the check-all flag before |
| Todos.ToggleAllFlips | src/app/todo/todo.component.ts:91-94 | On a non-empty list the check-all flag is negated |
| Todos.StartEdit | src/app/todo/todo.component.ts:63-68 | An unknown id changes nothing; otherwise the editing id is set and the field holds the first matching item's title |
| Todos.Rename | src/app/todo/todo.component.ts:73 | Same length and order; only the titles of items with the id change, to the new title; a non-blank trimmed title keeps every title non-blank and trimmed |
| Todos.RenameToSameTitle | src/app/todo/todo.component.ts:73 | With unique ids, renaming an item to its own title leaves the list unchanged |
| Todos.ConfirmEdit | src/app/todo/todo.component.ts:70-76 | A blank trimmed title is exactly a removal of the id; otherwise only the titles of matching items change, to the trimmed title, and the editing id and field are cleared |
| Todos.CancelEdit | src/app/todo/todo.component.ts:78-81 | Editing id and field are cleared, the list, keyword and filter are kept |
| Todos.EditUnchangedKeepsList | src/app/todo/todo.component.ts:63-76 | With unique ids and trimmed titles, opening an item and confirming without typing leaves the list unchanged |
| Todos.SearchKey | src/app/todo/todo.component.ts:36 | The lower-cased form of the keyword cut free of its surrounding white space (a trimmed slice of the keyword): no longer than the keyword, empty exactly when the keyword is blank, and free of ASCII capitals |
| Todos.Shown | src/app/todo/todo.component.ts:38-41 | An item passes exactly when the key is empty or occurs in its lower-cased title, and it is not done under "active" and done under "done" |
| Todos.Filtered | src/app/todo/todo.component.ts:35-43 | The view is a subsequence of the list; each shown item matches the keyword and the state selector; each matching item is shown as often as it occurs |
| Todos.FilteredShowsAll | src/app/todo/todo.component.ts:35-43 | With the selector on all and a blank keyword the view is the whole list |
| Todos.InitialIsEmpty | src/app/todo/todo.component.ts:16-20 | The initial signals give a well-formed empty list with no left or completed items, the check-all box clear and an empty view |
| Todos.FilteredViewsPartition | src/app/todo/todo.component.ts:35-43 | For one keyword, the active and done views together have as many items as the all view |
| Weather.BandsDisjoint | src/app/weather/weather.component.ts:32-40 | No code lies in two theme bands |
| Weather.CodeToTheme | src/app/weather/weather.component.ts:32-40 | A non-default theme's band contains the code; the default theme is returned exactly when no band does |
| Weather.ThemeExactlyBand | src/app/weather/weather.component.ts:32-40 | For each non-default theme, the classifier returns it exactly for codes in its band |
| Weather.Status | src/app/weather/weather.component.ts:66 | A missing code shows the default theme; a present one is classified |
| Weather.RoundHalfUp | src/app/weather/weather.component.ts:87 | The result is the floor of `num / den + 1/2`, the integer `Math.round` gives |
| Weather.Convert | src/app/weather/weather.component.ts:85-88 | A missing temperature stays missing; Celsius is shown as is; Fahrenheit is the integer strictly within one half of `v * 9 / 5 + 32` |
| Weather.Temp | src/app/weather/weather.component.ts:64 | The temperature shown is missing until fetched, the fetched value in Celsius, and within one half of `v * 9 / 5 + 32` in Fahrenheit |
| Weather.Feel | src/app/weather/weather.component.ts:65 | The same for the felt temperature |
| Weather.ConvertExamples | src/app/weather/weather.component.ts:87 | 0, 100, -40 and 37 degrees Celsius are shown as 32, 212, -40 and 99 Fahrenheit |
| Weather.ToggleUnit | src/app/weather/weather.component.ts:76-78 | The unit changes and nothing else does |
| Weather.ToggleUnitTwice | src/app/weather/weather.component.ts:76-78 | Toggling twice restores the state |
| Weather.SelectNamed | src/app/weather/weather.component.ts:81-82 | The first city of the list with the name, or the current city when no city has it |
| Weather.ChangeCity | src/app/weather/weather.component.ts:80-83 | An unknown name keeps the selection; a known one selects the first city of that name and changes nothing else |
| Weather.DefaultCityListed | src/app/weather/weather.component.ts:53 | The initial city lookup succeeds, at position 7, and the page's initial selection is that city |
| Counter.Increment | src/app/counter/counter.component.ts:243-245 | The count grows by exactly one |
| Counter.Decrement | src/app/counter/counter.component.ts:246-248 | The count shrinks by exactly one, also below zero |
| Counter.Reset | src/app/counter/counter.component.ts:249-251 | The count becomes the initial count, zero |
| Counter.OnKey | src/app/counter/counter.component.ts:277-280 | Right arrow counts up, left arrow counts down, any other key leaves the count |
| Counter.StepsCancel | src/app/counter/counter.component.ts:243-248 | A step up and a step down cancel in either order |
| Counter.ArrowKeysCancel | src/app/counter/counter.component.ts:277-280 | The two arrow keys undo each other in either order |

## Left out

- Notifications: `notify`, `requestNotificationPermission` and the permission signal have no effect on timer state. A notification sent on each phase switch, including during catch-up, is not modelled.
- `progress` and `percent` of the timer: floating-point division and rounding for a progress bar.
- Storage, `JSON.parse`/`JSON.stringify` and Angular `effect`/`signal`: replaced by the `Record` datatype and pure functions. When the persist effect runs is not modelled; `Persist` is the record it writes.
- The rxjs `interval` and `Subscription`: `Tick` is the callback; the ticker is the `running` flag. `ngOnInit` calls the loader; `ngOnDestroy` calls `Pause`.
- Non-integer numbers: `Math.floor` of a fractional stored value, fractional duration input, and `Infinity`. Stored numbers and typed durations are taken as exact integers, without the 2^53 limit of doubles (see Text.NatToDecimal).
- Persistence.Load: a stored value that parses to `null`, or to something other than an object, is folded into `stored == None`, because both leave the state unchanged.
- Timer.MinutesText: for a negative countdown only the length is stated, because `Valid` keeps the countdown non-negative and the sign-prefixed numeral never shows. The same holds for Timer.SecondsText. A countdown of 6·10^22 seconds or more, which a stored record or a typed duration can supply, shows minutes in JavaScript's exponent form (`1e+21`), while the model promises the full digit string. See Text.NatToDecimal.
- Text.NatToDecimal: numbers are unbounded integers, not JavaScript doubles. Doubles hold integers exactly only up to 2^53, and `toString` writes 10^21 and above in exponent form. The model gives the plain decimal numeral for every natural number, so it matches the page only below 10^21. The same holds for Text.IntToString.
- Text.Lower: only ASCII letters are lower-cased; the Unicode case mapping of `toLowerCase` is not modelled.
- The todo list's constructor, which loads the list from storage, and `trackById`, which is display glue.
- `cryptoRandomId` and `Date.now()` in `add`: the id and the creation time are parameters.
- Weather fetching (`fetch`, the weather service, `loading`, `error`, `updatedAt`): HTTP. The refetch when the city changes is not modelled. The fetched values are state fields, already rounded to whole degrees.
- Weather.Convert: exact rational arithmetic instead of doubles. Since the exact value is never halfway between two integers, rounding agrees for every temperature a thermometer reports.
- The label and icon shown with each weather theme: display text, fixed per theme.
- City coordinates: floating-point values used only for fetching.
- Counter `startHold`/`stopHold`: browser timers and pointer capture repeating `Increment`/`Decrement`.
- The investment projector, the questionnaire form, the user card, routing and the application shell: floating-point finance, form validation glue and framework wiring, outside the four pages modelled here.

=== FILE: counter.dfy ===
/** The counter page: a count that the buttons and the arrow keys move by one. */
module Counter {

  const Initial := 0

  /** One step up; there is no upper bound. */
  function Increment(c: int): (r: int)
    ensures r > c && r - c == 1
  {
    c + 1
  }

  /** One step down; the count may go below zero. */
  function Decrement(c: int): (r: int)
    ensures r < c && c - r == 1
  {
    c - 1
  }

  /** Back to the initial count from anywhere. */
  function Reset(c: int): (r: int)
    ensures r == Initial
  {
    0
  }

  /** The window key handler: the right arrow counts up, the left arrow counts
      down, every other key is ignored. */
  function OnKey(c: int, key: string): (r: int)
    ensures key == "ArrowRight" ==> r == Increment(c)
    ensures key == "ArrowLeft" ==> r == Decrement(c)
    ensures key != "ArrowRight" && key != "ArrowLeft" ==> r == c
  {
    if key == "ArrowRight" then Increment(c)
    else if key == "ArrowLeft" then Decrement(c)
    else c
  }

  /** A step up and a step down cancel, in either order. */
  lemma StepsCancel(c: int)
    ensures Decrement(Increment(c)) == c && Increment(Decrement(c)) == c
  {
  }

  /** The left and right arrow keys undo each other. */
  lemma ArrowKeysCancel(c: int)
    ensures OnKey(OnKey(c, "ArrowRight"), "ArrowLeft") == c
    ensures OnKey(OnKey(c, "ArrowLeft"), "ArrowRight") == c
  {
  }
}

=== FILE: persistence.dfy ===
/** Saving the pomodoro timer after every change and resuming it on the next
    visit: the stored record, its all-or-nothing type check, the clamping of
    the loaded values, and the catch-up that fast-forwards a timer that was
    running while the page was closed. Storage and `JSON.parse` are replaced
    by a record whose fields may be missing; `Date.now()` is a parameter. */
module Persistence {
  import opened Wrappers
  import opened Timer

  /** A parsed JSON value, as far as `typeof` tells values apart. Numbers are
      taken to be integers. */
  datatype Json = JNumber(n: int) | JBool(b: bool) | JString(str: string) | JNull | JObject

  /** The stored object; `None` is a property that is absent (`undefined`). */
  datatype Record = Record(
    workMinutes: Option<Json>,
    breakMinutes: Option<Json>,
    isWork: Option<Json>,
    remainingSec: Option<Json>,
    completed: Option<Json>,
    running: Option<Json>,
    lastTickAt: Option<Json>,
    notifyOn: Option<Json>)

  /** A record that passed the type check. */
  datatype Saved = Saved(
    workMinutes: int,
    breakMinutes: int,
    isWork: bool,
    remainingSec: int,
    completed: int,
    running: bool,
    lastTickAt: int,
    notifyOn: bool)

  predicate IsNumber(v: Option<Json>) {
    v.Some? && v.value.JNumber?
  }

  predicate IsBool(v: Option<Json>) {
    v.Some? && v.value.JBool?
  }

  /** The eight `typeof` checks the loader makes before it touches anything. */
  predicate WellTyped(rec: Record) {
    && IsNumber(rec.workMinutes) && IsNumber(rec.breakMinutes)
    && IsNumber(rec.remainingSec) && IsNumber(rec.completed)
    && IsBool(rec.isWork) && IsBool(rec.running)
    && IsNumber(rec.lastTickAt) && IsBool(rec.notifyOn)
  }

  /** The record written after every change, stamped with the time `now`. */
  function Persist(s: State, now: int): (r: Record)
    ensures WellTyped(r)
  {
    Record(
      Some(JNumber(s.workMinutes)), Some(JNumber(s.breakMinutes)), Some(JBool(s.isWork)),
      Some(JNumber(s.remainingSec)), Some(JNumber(s.completed)), Some(JBool(s.running)),
      Some(JNumber(now)), Some(JBool(s.notifyOn)))
  }

  /** The type check: all eight fields have the right type, or nothing is
      read. */
  function Decode(rec: Record): (r: Option<Saved>)
    ensures r.Some? <==> WellTyped(rec)
    ensures r.Some? ==>
              && r.value.workMinutes == rec.workMinutes.value.n
              && r.value.breakMinutes == rec.breakMinutes.value.n
              && r.value.isWork == rec.isWork.value.b
              && r.value.remainingSec == rec.remainingSec.value.n
              && r.value.completed == rec.completed.value.n
              && r.value.running == rec.running.value.b
              && r.value.lastTickAt == rec.lastTickAt.value.n
              && r.value.notifyOn == rec.notifyOn.value.b
  {
    if !WellTyped(rec) then None
    else Some(Saved(
      rec.workMinutes.value.n, rec.breakMinutes.value.n, rec.isWork.value.b,
      rec.remainingSec.value.n, rec.completed.value.n, rec.running.value.b,
      rec.lastTickAt.value.n, rec.notifyOn.value.b))
  }

  /** Copies a checked record into the state, raising durations to at least
      one minute and counters to at least zero. `running` is not copied. */
  function Restore(s: State, d: Saved): (r: State)
    ensures Valid(r)
    ensures r.workMinutes == Max(1, d.workMinutes) && r.breakMinutes == Max(1, d.breakMinutes)
    ensures r.completed == Max(0, d.completed) && r.remainingSec == Max(0, d.remainingSec)
    ensures r.isWork == d.isWork && r.notifyOn == d.notifyOn && r.running == s.running
  {
    s.(workMinutes := Max(1, d.workMinutes), breakMinutes := Max(1, d.breakMinutes),
       isWork := d.isWork, completed := Max(0, d.completed),
       remainingSec := Max(0, d.remainingSec), notifyOn := d.notifyOn)
  }

  /** Fast-forwards through `delta` seconds: finish the current phase while the
      gap allows, switch, and go on. A gap that ends exactly on a boundary
      leaves the timer at the start of the next phase. Terminates because
      every switch puts at least 60 seconds on the countdown. */
  function CatchUp(s: State, delta: int): (r: State)
    requires s.workMinutes >= 1 && s.breakMinutes >= 1 && s.remainingSec >= 0
    ensures r.workMinutes == s.workMinutes && r.breakMinutes == s.breakMinutes
    ensures r.running == s.running && r.notifyOn == s.notifyOn
    ensures r.remainingSec >= 0 && r.completed >= s.completed
    ensures delta > 0 ==> r.remainingSec > 0
    ensures delta <= 0 ==> r == s
    ensures 0 < delta < s.remainingSec ==> r == s.(remainingSec := s.remainingSec - delta)
    ensures 0 < delta == s.remainingSec ==> r == SwitchPhase(s)
    ensures 0 < delta && s.remainingSec == 0 ==> r == CatchUp(SwitchPhase(s), delta)
    ensures WithinPhase(s) ==> WithinPhase(r)
    decreases if delta > 0 then delta + (if s.remainingSec == 0 then 1 else 0) else 0
  {
    if delta <= 0 then s
    else if delta < s.remainingSec then s.(remainingSec := s.remainingSec - delta)
    else CatchUp(SwitchPhase(s), delta - s.remainingSec)
  }

  /** The catch-up as the loader writes it, a loop over the remaining gap; it
      computes `CatchUp`. */
  method CatchUpLoop(s: State, gap: int) returns (r: State)
    requires s.workMinutes >= 1 && s.breakMinutes >= 1 && s.remainingSec >= 0
    ensures r == CatchUp(s, gap)
  {
    r := s;
    var delta := gap;
    while delta > 0
      invariant r.workMinutes >= 1 && r.breakMinutes >= 1 && r.remainingSec >= 0
      invariant CatchUp(r, delta) == CatchUp(s, gap)
      decreases if delta > 0 then delta + (if r.remainingSec == 0 then 1 else 0) else 0
    {
      var left := r.remainingSec;
      if delta < left {
        r := r.(remainingSec := left - delta);
        delta := 0;
      } else {
        delta := delta - left;
        r := SwitchPhase(r);
      }
    }
  }

  /** Whole seconds between the stamp and now: `Math.floor(ms / 1000)`, which
      Dafny's `/` by a positive divisor computes. A stamp in the future gives a
      negative count, which the catch-up ignores. */
  function ElapsedSeconds(lastTickAt: int, now: int): (r: int)
    ensures r * 1000 <= now - lastTickAt < r * 1000 + 1000
  {
    (now - lastTickAt) / 1000
  }

  /** The loader. `stored` is `None` when nothing is stored or the text does
      not parse as an object; then, and whenever the type check fails, the
      state is left exactly as it was. Otherwise the values are restored and,
      if the timer was running when saved, the gap since the stamp is caught
      up and the ticker started. */
  function Load(s: State, stored: Option<Record>, now: int): (r: State)
    ensures stored.None? ==> r == s
    ensures stored.Some? && !WellTyped(stored.value) ==> r == s
    ensures stored.Some? && WellTyped(stored.value) ==> Valid(r)
    ensures stored.Some? && WellTyped(stored.value) ==>
              var d := Decode(stored.value).value;
              && r.workMinutes == Max(1, d.workMinutes) && r.breakMinutes == Max(1, d.breakMinutes)
              && r.notifyOn == d.notifyOn && r.completed >= Max(0, d.completed)
              && r.running == (s.running || d.running)
              && (!d.running ==> r == Restore(s, d))
              && (d.running ==> r == Start(CatchUp(Restore(s, d), ElapsedSeconds(d.lastTickAt, now))))
  {
    match stored
    case None => s
    case Some(rec) =>
      match Decode(rec)
      case None => s
      case Some(d) =>
        var restored := Restore(s, d);
        if d.running then Start(CatchUp(restored, ElapsedSeconds(d.lastTickAt, now)))
        else restored
  }

  // ---- Properties of the catch-up ----

  /** Catching up on two gaps one after the other is catching up on their sum. */
  lemma {:induction false} CatchUpAdditive(s: State, a: int, b: int)
    requires s.workMinutes >= 1 && s.breakMinutes >= 1 && s.remainingSec >= 0
    requires a >= 0 && b >= 0
    ensures CatchUp(CatchUp(s, a), b) == CatchUp(s, a + b)
    decreases if a > 0 then a + (if s.remainingSec == 0 then 1 else 0) else 0
  {
    if a > 0 && a >= s.remainingSec {
      CatchUpAdditive(SwitchPhase(s), a - s.remainingSec, b);
    } else if a > 0 && a + b >= s.remainingSec {
      var mid := s.(remainingSec := s.remainingSec - a);
      assert CatchUp(s, a) == mid;
      assert SwitchPhase(mid) == SwitchPhase(s);
    }
  }

  /** Before the first boundary, catching up on a gap and ticking through it
      agree. */
  lemma CatchUpMatchesTicks(s: State, n: nat)
    requires s.workMinutes >= 1 && s.breakMinutes >= 1
    requires n < s.remainingSec
    ensures CatchUp(s, n) == Ticks(s, n)
  {
    TicksCountDown(s, n);
  }

  /** At a boundary the two part ways: the live ticker needs one more tick
      than the catch-up to enter the next phase. */
  lemma CatchUpSkipsZeroTick(s: State)
    requires s.workMinutes >= 1 && s.breakMinutes >= 1 && s.remainingSec > 0
    ensures CatchUp(s, s.remainingSec) == Ticks(s, s.remainingSec + 1)
    ensures CatchUp(s, s.remainingSec) != Ticks(s, s.remainingSec)
  {
    PhaseEndsOneTickAfterZero(s);
  }

  /** Work 25 minutes, break 5, 10 seconds of work left, reopened 330 seconds
      later: 10 seconds finish the work phase, 300 the break, and 20 come off
      the next work phase. */
  lemma ResumeScenario(s: State, t: int)
    ensures var saved := Persist(State(25, 5, true, 10, 0, true, true), t);
            Load(s, Some(saved), t + 330_000) == State(25, 5, true, 1480, 1, true, true)
  {
    var run := s.running;
    var restored := State(25, 5, true, 10, 0, run, true);
    var onBreak := SwitchPhase(restored);
    assert onBreak == State(25, 5, false, 300, 1, run, true);
    var backToWork := SwitchPhase(onBreak);
    assert backToWork == State(25, 5, true, 1500, 1, run, true);
    assert CatchUp(backToWork, 20) == State(25, 5, true, 1480, 1, run, true);
    assert CatchUp(onBreak, 320) == CatchUp(backToWork, 20);
    assert CatchUp(restored, 330) == CatchUp(onBreak, 320);
    assert ElapsedSeconds(t, t + 330_000) == 330;
  }

  // ---- Round trips ----

  /** A paused timer, saved and loaded into a paused component, comes back
      unchanged. */
  lemma PersistLoadPaused(s: State, s0: State, t: int, now: int)
    requires Valid(s) && !s.running && !s0.running
    ensures Load(s0, Some(Persist(s, t)), now) == s
  {
  }

  /** A running timer, saved and loaded, comes back caught up on the whole
      seconds elapsed since it was saved, whatever state it is loaded into. */
  lemma PersistLoadRunning(s: State, s0: State, t: int, now: int)
    requires Valid(s) && s.running
    ensures Load(s0, Some(Persist(s, t)), now) == CatchUp(s, ElapsedSeconds(t, now))
  {
    var restored := Restore(s0, Decode(Persist(s, t)).value);
    assert restored == s.(running := s0.running);
    CatchUpIgnoresRunning(s, s0.running, ElapsedSeconds(t, now));
  }

  lemma {:induction false} CatchUpIgnoresRunning(s: State, running: bool, delta: int)
    requires s.workMinutes >= 1 && s.breakMinutes >= 1 && s.remainingSec >= 0
    ensures CatchUp(s.(running := running), delta) == CatchUp(s, delta).(running := running)
    decreases if delta > 0 then delta + (if s.remainingSec == 0 then 1 else 0) else 0
  {
    if delta > 0 && delta >= s.remainingSec {
      CatchUpIgnoresRunning(SwitchPhase(s), running, delta - s.remainingSec);
      assert SwitchPhase(s.(running := running)) == SwitchPhase(s).(running := running);
    }
  }

  /** Loading within the same second as the save restores a running timer
      exactly. */
  lemma PersistLoadSameSecond(s: State, s0: State, t: int, now: int)
    requires Valid(s) && t <= now < t + 1000
    ensures Load(s0, Some(Persist(s, t)), now) == s.(running := s.running || s0.running)
  {
    if s.running {
      PersistLoadRunning(s, s0, t, now);
    }
  }
}

=== FILE: seqs.dfy ===
/** `Array.prototype.filter` over immutable sequences, with the facts the todo
    list relies on: it keeps exactly the matching elements, in their order. */
module Seqs {
  import opened Wrappers

  /** The elements of `s` that satisfy `p`, in their original order. */
  function Keep<T>(s: seq<T>, p: T -> bool): (r: seq<T>)
    ensures |r| <= |s|
    ensures forall i :: 0 <= i < |r| ==> p(r[i]) && r[i] in s
  {
    if |s| == 0 then []
    else if p(s[0]) then [s[0]] + Keep(s[1..], p)
    else Keep(s[1..], p)
  }

  /** The position of the first element satisfying `p`, as
      `Array.prototype.find` looks for it, or `None` when there is none. */
  function FindFirst<T>(s: seq<T>, p: T -> bool): (r: Option<nat>)
    ensures r.None? <==> forall i :: 0 <= i < |s| ==> !p(s[i])
    ensures r.Some? ==> r.value < |s| && p(s[r.value])
                        && forall j :: 0 <= j < r.value ==> !p(s[j])
  {
    if |s| == 0 then None
    else if p(s[0]) then Some(0)
    else match FindFirst(s[1..], p)
      case None => None
      case Some(k) => Some(k + 1)
  }

  /** The position `find` reports is determined by the test alone: it is the
      one passing position with no passing position before it. */
  lemma FindFirstAt<T>(s: seq<T>, p: T -> bool, k: nat)
    requires k < |s| && p(s[k])
    requires forall j :: 0 <= j < k ==> !p(s[j])
    ensures FindFirst(s, p) == Some(k)
  {
  }

  /** `a` can be obtained from `b` by deleting elements: order is preserved. */
  predicate SubseqOf<T(==)>(a: seq<T>, b: seq<T>)
    decreases |b|
  {
    if |a| == 0 then true
    else if |b| == 0 then false
    else (a[0] == b[0] && SubseqOf(a[1..], b[1..])) || SubseqOf(a, b[1..])
  }

  lemma {:induction false} KeepIsSubseq<T>(s: seq<T>, p: T -> bool)
    ensures SubseqOf(Keep(s, p), s)
  {
    if |s| > 0 {
      KeepIsSubseq(s[1..], p);
      if p(s[0]) {
        assert Keep(s, p)[1..] == Keep(s[1..], p);
      }
    }
  }

  /** Filtering distributes over concatenation: no element overtakes another. */
  lemma {:induction false} KeepAppend<T>(a: seq<T>, b: seq<T>, p: T -> bool)
    ensures Keep(a + b, p) == Keep(a, p) + Keep(b, p)
  {
    if |a| > 0 {
      assert (a + b)[1..] == a[1..] + b;
      KeepAppend(a[1..], b, p);
    } else {
      assert a + b == b;
    }
  }

  /** Each value occurs in the result as often as in `s` if it matches, and not
      at all otherwise. */
  lemma {:induction false} KeepMultiplicity<T>(s: seq<T>, p: T -> bool, x: T)
    ensures multiset(Keep(s, p))[x] == if p(x) then multiset(s)[x] else 0
  {
    if |s| > 0 {
      assert s == [s[0]] + s[1..];
      KeepMultiplicity(s[1..], p, x);
    }
  }

  /** `KeepMultiplicity` for every matching value at once. */
  lemma KeepMatchingMultiplicity<T>(s: seq<T>, p: T -> bool)
    ensures forall x :: p(x) ==> multiset(Keep(s, p))[x] == multiset(s)[x]
  {
    forall x | p(x) {
      KeepMultiplicity(s, p, x);
    }
  }

  /** Nothing is dropped when every element matches. */
  lemma {:induction false} KeepAllMatch<T>(s: seq<T>, p: T -> bool)
    requires forall i :: 0 <= i < |s| ==> p(s[i])
    ensures Keep(s, p) == s
  {
    if |s| > 0 {
      KeepAllMatch(s[1..], p);
    }
  }

  /** Nothing survives when no element matches. */
  lemma {:induction false} KeepNoneMatch<T>(s: seq<T>, p: T -> bool)
    requires forall i :: 0 <= i < |s| ==> !p(s[i])
    ensures Keep(s, p) == []
  {
    if |s| > 0 {
      KeepNoneMatch(s[1..], p);
    }
  }

  /** The filter comes back empty exactly when no element matches. */
  lemma {:induction false} KeepEmptyIff<T>(s: seq<T>, p: T -> bool)
    ensures Keep(s, p) == [] <==> forall i :: 0 <= i < |s| ==> !p(s[i])
  {
    if |s| > 0 {
      KeepEmptyIff(s[1..], p);
      assert forall i :: 1 <= i < |s| ==> s[i] == s[1..][i - 1];
    }
  }

  /** Filtering by `p` and by its negation splits the sequence in two. */
  lemma {:induction false} KeepComplement<T>(s: seq<T>, p: T -> bool, q: T -> bool)
    requires forall x :: q(x) == !p(x)
    ensures |Keep(s, p)| + |Keep(s, q)| == |s|
  {
    if |s| > 0 {
      KeepComplement(s[1..], p, q);
    }
  }

  /** Two predicates that agree on the elements of `s` filter it the same way. */
  lemma {:induction false} KeepCongruent<T>(s: seq<T>, p: T -> bool, q: T -> bool)
    requires forall i :: 0 <= i < |s| ==> p(s[i]) == q(s[i])
    ensures Keep(s, p) == Keep(s, q)
  {
    if |s| > 0 {
      KeepCongruent(s[1..], p, q);
    }
  }

  /** Filtering twice is filtering once by both conditions. */
  lemma {:induction false} KeepKeep<T>(s: seq<T>, p: T -> bool, q: T -> bool, pq: T -> bool)
    requires forall x :: pq(x) == (p(x) && q(x))
    ensures Keep(Keep(s, p), q) == Keep(s, pq)
  {
    if |s| > 0 {
      KeepKeep(s[1..], p, q, pq);
      if p(s[0]) {
        assert Keep(s, p) == [s[0]] + Keep(s[1..], p);
        assert Keep(s, p)[1..] == Keep(s[1..], p);
      }
    }
  }
}

=== FILE: text.dfy ===
/** The JavaScript string operations the components rely on: `trim`,
    `toLowerCase`, `includes`, number-to-string and `padStart`. */
module Text {

  /** JavaScript's WhiteSpace and LineTerminator code points: exactly the
      characters `String.prototype.trim` removes. */
  predicate IsSpace(c: char) {
    var n := c as int;
    || (9 <= n <= 13)             // tab, line feed, vertical tab, form feed, carriage return
    || n == 0x20 || n == 0xA0     // space, no-break space
    || n == 0x1680
    || (0x2000 <= n <= 0x200A)
    || n == 0x2028 || n == 0x2029 // line and paragraph separators
    || n == 0x202F || n == 0x205F || n == 0x3000
    || n == 0xFEFF                // byte order mark
  }

  predicate AllSpace(s: string) {
    forall i :: 0 <= i < |s| ==> IsSpace(s[i])
  }

  /** Neither end of `s` is white space. */
  predicate Trimmed(s: string) {
    |s| == 0 || (!IsSpace(s[0]) && !IsSpace(s[|s| - 1]))
  }

  /** `r` is a slice of `s` whose surroundings in `s`, before and after, are
      all white space. */
  predicate CutFromSpace(r: string, s: string) {
    exists i, j :: 0 <= i <= j <= |s| && r == s[i..j] && AllSpace(s[..i]) && AllSpace(s[j..])
  }

  /** Drops leading white space: the result is the suffix of `s` that starts at
      the first non-space character. */
  function TrimStart(s: string): (r: string)
    ensures |r| <= |s| && r == s[|s| - |r|..]
    ensures AllSpace(s[..|s| - |r|])
    ensures |r| == 0 || !IsSpace(r[0])
    ensures r == [] <==> AllSpace(s)
    ensures |s| > 0 && !IsSpace(s[0]) ==> r == s
  {
    if |s| > 0 && IsSpace(s[0]) then
      var r := TrimStart(s[1..]);
      TrimStartStep(s, r);
      r
    else s
  }

  /** Dropping one more leading space keeps `TrimStart`'s contract. */
  lemma TrimStartStep(s: string, r: string)
    requires |s| > 0 && IsSpace(s[0])
    requires |r| <= |s| - 1 && r == s[1..][|s| - 1 - |r|..]
    requires AllSpace(s[1..][..|s| - 1 - |r|])
    requires r == [] <==> AllSpace(s[1..])
    ensures r == s[|s| - |r|..]
    ensures AllSpace(s[..|s| - |r|])
    ensures r == [] <==> AllSpace(s)
  {
    DropFirst(s, |s| - 1 - |r|);
    AllSpaceConcat([s[0]], s[1..]);
    AllSpaceConcat([s[0]], s[1..][..|s| - 1 - |r|]);
  }

  /** Drops trailing white space: the result is the prefix of `s` that ends at
      the last non-space character. */
  function TrimEnd(s: string): (r: string)
    ensures |r| <= |s| && r == s[..|r|]
    ensures AllSpace(s[|r|..])
    ensures |r| == 0 || !IsSpace(r[|r| - 1])
    ensures r == [] <==> AllSpace(s)
    ensures |s| > 0 && !IsSpace(s[|s| - 1]) ==> r == s
  {
    if |s| > 0 && IsSpace(s[|s| - 1]) then
      var r := TrimEnd(s[..|s| - 1]);
      TrimEndStep(s, r);
      r
    else s
  }

  /** Dropping one more trailing space keeps `TrimEnd`'s contract. */
  lemma TrimEndStep(s: string, r: string)
    requires |s| > 0 && IsSpace(s[|s| - 1])
    requires |r| <= |s| - 1 && r == s[..|s| - 1][..|r|]
    requires AllSpace(s[..|s| - 1][|r|..])
    requires r == [] <==> AllSpace(s[..|s| - 1])
    ensures r == s[..|r|]
    ensures AllSpace(s[|r|..])
    ensures r == [] <==> AllSpace(s)
  {
    var init := s[..|s| - 1];
    DropLast(s, |r|);
    AllSpaceConcat(init, [s[|s| - 1]]);
    AllSpaceConcat(init[|r|..], [s[|s| - 1]]);
  }

  /** Slices of `s` seen through `s[1..]`. */
  lemma DropFirst<T>(s: seq<T>, k: nat)
    requires k < |s|
    ensures s == [s[0]] + s[1..]
    ensures s[1..][k..] == s[k + 1..]
    ensures s[..k + 1] == [s[0]] + s[1..][..k]
  {
  }

  /** Slices of `s` seen through `s[..|s| - 1]`. */
  lemma DropLast<T>(s: seq<T>, k: nat)
    requires k < |s|
    ensures s == s[..|s| - 1] + [s[|s| - 1]]
    ensures s[..|s| - 1][..k] == s[..k]
    ensures s[k..] == s[..|s| - 1][k..] + [s[|s| - 1]]
  {
  }

  lemma AllSpaceConcat(a: string, b: string)
    ensures AllSpace(a + b) <==> AllSpace(a) && AllSpace(b)
  {
    assert forall i :: 0 <= i < |a| ==> (a + b)[i] == a[i];
    assert forall i :: 0 <= i < |b| ==> (a + b)[|a| + i] == b[i];
  }

  /** `String.prototype.trim`. */
  function Trim(s: string): (r: string)
    ensures Trimmed(r)
    ensures r == [] <==> AllSpace(s)
    ensures Trimmed(s) ==> r == s
    ensures CutFromSpace(r, s)
  {
    TrimIsTrimmed(s);
    TrimEmptyIff(s);
    TrimKeepsTrimmed(s);
    SliceBetweenSpace(s, TrimStart(s), TrimEnd(TrimStart(s)));
    TrimEnd(TrimStart(s))
  }

  lemma TrimIsTrimmed(s: string)
    ensures Trimmed(TrimEnd(TrimStart(s)))
  {
    var t := TrimStart(s);
    var r := TrimEnd(t);
    assert |r| > 0 ==> r[0] == t[0];
  }

  lemma TrimEmptyIff(s: string)
    ensures TrimEnd(TrimStart(s)) == [] <==> AllSpace(s)
  {
    var t := TrimStart(s);
    assert |t| > 0 ==> !AllSpace(t);
  }

  lemma TrimKeepsTrimmed(s: string)
    ensures Trimmed(s) ==> TrimEnd(TrimStart(s)) == s
  {
    if Trimmed(s) && |s| > 0 {
      assert TrimStart(s) == s;
    }
  }

  /** A prefix `r` of a suffix `t` of `s`, with only white space cut off on
      either side, is a slice of `s` between two runs of white space. */
  lemma SliceBetweenSpace(s: string, t: string, r: string)
    requires |t| <= |s| && t == s[|s| - |t|..] && AllSpace(s[..|s| - |t|])
    requires |r| <= |t| && r == t[..|r|] && AllSpace(t[|r|..])
    ensures CutFromSpace(r, s)
  {
    SuffixOfPrefix(s, t, r);
    var i := |s| - |t|;
    var j := i + |r|;
    assert AllSpace(s[..i]) && AllSpace(s[j..]) && r == s[i..j];
  }

  /** A prefix `r` of a suffix `t` of `s` is the slice of `s` between them, and
      what follows `r` in `t` is what follows it in `s`. */
  lemma SuffixOfPrefix<T>(s: seq<T>, t: seq<T>, r: seq<T>)
    requires |t| <= |s| && t == s[|s| - |t|..]
    requires |r| <= |t| && r == t[..|r|]
    ensures r == s[|s| - |t|..|s| - |t| + |r|]
    ensures t[|r|..] == s[|s| - |t| + |r|..]
  {
  }

  /** `String.prototype.toLowerCase` on one character, for the ASCII range. */
  function LowerChar(c: char): (r: char)
    ensures 'A' <= c <= 'Z' ==> 'a' <= r <= 'z' && r as int - c as int == 32
    ensures !('A' <= c <= 'Z') ==> r == c
  {
    if 'A' <= c <= 'Z' then (c as int + 32) as char else c
  }

  function Lower(s: string): (r: string)
    ensures |r| == |s|
    ensures forall i :: 0 <= i < |s| ==> r[i] == LowerChar(s[i])
  {
    seq(|s|, i requires 0 <= i < |s| => LowerChar(s[i]))
  }

  /** `String.prototype.includes`: `needle` occurs in `hay` at some offset. */
  predicate Contains(hay: string, needle: string) {
    exists i :: 0 <= i <= |hay| - |needle| && OccursAt(hay, needle, i)
  }

  predicate OccursAt(hay: string, needle: string, i: int) {
    0 <= i <= |hay| - |needle| && hay[i..i + |needle|] == needle
  }

  // ---- Decimal numerals ----

  predicate IsDigit(c: char) {
    '0' <= c <= '9'
  }

  predicate AllDigits(s: string) {
    forall i :: 0 <= i < |s| ==> IsDigit(s[i])
  }

  /** The numeric value of a string of decimal digits (leading zeros allowed). */
  function DecimalValue(s: string): nat
    requires AllDigits(s)
  {
    if |s| == 0 then 0
    else DecimalValue(s[..|s| - 1]) * 10 + (s[|s| - 1] as int - '0' as int)
  }

  /** `Number.prototype.toString()` for a natural number below 10^21, where
      JavaScript writes the shortest decimal numeral (from 10^21 on it switches
      to exponent form, which is not modelled). */
  function NatToDecimal(n: nat): (r: string)
    ensures |r| >= 1 && AllDigits(r)
    ensures DecimalValue(r) == n
    ensures |r| > 1 ==> r[0] != '0'
  {
    var d := [(('0' as int) + n % 10) as char];
    if n < 10 then d
    else
      var p := NatToDecimal(n / 10);
      assert (p + d)[..|p + d| - 1] == p;
      p + d
  }

  /** Numbers below 100 have numerals of one digit below 10 and two from 10. */
  lemma SmallNumeralLength(n: nat)
    requires n < 100
    ensures |NatToDecimal(n)| == if n < 10 then 1 else 2
  {
    if n >= 10 {
      assert NatToDecimal(n) == NatToDecimal(n / 10) + [(('0' as int) + n % 10) as char];
    }
  }

  /** `Number.prototype.toString()` for an integer of magnitude below 10^21:
      a minus sign for a negative number, then the numeral of its magnitude. */
  function IntToString(i: int): (r: string)
    ensures i >= 0 ==> AllDigits(r) && DecimalValue(r) == i && (|r| > 1 ==> r[0] != '0')
    ensures i < 0 ==> |r| >= 2 && r[0] == '-' && AllDigits(r[1..]) && DecimalValue(r[1..]) == -i
  {
    if i < 0 then "-" + NatToDecimal(-i) else NatToDecimal(i)
  }

  /** `String.prototype.padStart(len, fill)` with a one-character fill. */
  function PadStart(s: string, len: nat, fill: char): (r: string)
    ensures |r| == if |s| < len then len else |s|
    ensures r[|r| - |s|..] == s
    ensures forall i :: 0 <= i < |r| - |s| ==> r[i] == fill
  {
    if |s| < len then seq(len - |s|, _ => fill) + s else s
  }

  /** A leading zero does not change the value of a numeral. */
  lemma {:induction false} LeadingZero(s: string)
    requires AllDigits(s)
    ensures AllDigits("0" + s) && DecimalValue("0" + s) == DecimalValue(s)
  {
    if |s| > 0 {
      var t := "0" + s;
      assert t[..|t| - 1] == "0" + s[..|s| - 1];
      LeadingZero(s[..|s| - 1]);
    }
  }

  /** Padding a numeral with zeros does not change its value. */
  lemma {:induction false} ZeroPadValue(s: string, len: nat)
    requires AllDigits(s)
    ensures AllDigits(PadStart(s, len, '0'))
    ensures DecimalValue(PadStart(s, len, '0')) == DecimalValue(s)
    decreases len - |s|
  {
    if |s| < len {
      var t := "0" + s;
      LeadingZero(s);
      ZeroPadValue(t, len);
      assert PadStart(t, len, '0') == PadStart(s, len, '0');
    }
  }
}

=== FILE: timer.dfy ===
/** The pomodoro timer of the time page: a countdown that alternates between a
    work phase and a break phase, counts completed work phases, and is driven
    by a one-second ticker while running. Every operation is a pure transition
    on an immutable `State`. */
module Timer {
  import opened Wrappers
  import Text

  const DefaultWork := 25
  const DefaultBreak := 5
  const DefaultNotify := true

  /** The component's signals. `running` also stands for "the one-second
      ticker is subscribed": `Start` and `Pause` are the only operations that
      touch either, and they always set both together. */
  datatype State = State(
    workMinutes: int,
    breakMinutes: int,
    isWork: bool,
    remainingSec: int,
    completed: int,
    running: bool,
    notifyOn: bool)

  /** The state the component is constructed with. */
  const Initial := State(DefaultWork, DefaultBreak, true, DefaultWork * 60, 0, false, DefaultNotify)

  function Max(a: int, b: int): int {
    if a >= b then a else b
  }

  /** What every operation keeps: durations of at least one minute, and
      counters that are never negative. */
  predicate Valid(s: State) {
    s.workMinutes >= 1 && s.breakMinutes >= 1 && s.remainingSec >= 0 && s.completed >= 0
  }

  /** The full length, in seconds, of the phase the timer is in. */
  function PhaseSeconds(s: State): int {
    (if s.isWork then s.workMinutes else s.breakMinutes) * 60
  }

  /** The countdown does not exceed the current phase's length. Some
      transitions keep this, but the component as a whole does not (see
      `EditWhileRunningOverrunsPhase`). */
  predicate WithinPhase(s: State) {
    s.remainingSec <= PhaseSeconds(s)
  }

  lemma InitialIsValid()
    ensures Valid(Initial) && WithinPhase(Initial) && Initial.remainingSec == PhaseSeconds(Initial)
  {
  }

  /** Enters the other phase with a full countdown; leaving a work phase
      completes one pomodoro. */
  function SwitchPhase(s: State): (r: State)
    ensures r.isWork == !s.isWork
    ensures r.remainingSec == PhaseSeconds(r)
    ensures r.completed == if s.isWork then s.completed + 1 else s.completed
    ensures r.(isWork := s.isWork, remainingSec := s.remainingSec, completed := s.completed) == s
    ensures s.workMinutes >= 1 && s.breakMinutes >= 1 ==> r.remainingSec >= 60
    ensures Valid(s) ==> Valid(r) && WithinPhase(r)
  {
    if s.isWork then
      s.(completed := s.completed + 1, isWork := false, remainingSec := s.breakMinutes * 60)
    else
      s.(isWork := true, remainingSec := s.workMinutes * 60)
  }

  /** One emission of the one-second ticker that `Start` subscribes: count
      down, and switch phase once the countdown has been at zero for a tick. */
  function Tick(s: State): (r: State)
    ensures s.remainingSec > 0 ==> r == s.(remainingSec := s.remainingSec - 1)
    ensures s.remainingSec <= 0 ==> r == SwitchPhase(s)
    ensures Valid(s) ==> Valid(r)
    ensures Valid(s) && WithinPhase(s) ==> WithinPhase(r)
  {
    if s.remainingSec > 0 then s.(remainingSec := s.remainingSec - 1) else SwitchPhase(s)
  }

  /** Starts the ticker; a second start does not add a second ticker. */
  function Start(s: State): (r: State)
    ensures r.running
    ensures r.(running := s.running) == s
  {
    if s.running then s else s.(running := true)
  }

  /** Stops the ticker. */
  function Pause(s: State): (r: State)
    ensures !r.running
    ensures r.(running := s.running) == s
  {
    s.(running := false)
  }

  lemma StartIdempotent(s: State)
    ensures Start(Start(s)) == Start(s)
    ensures s.running ==> Start(s) == s
  {
  }

  lemma PauseIdempotent(s: State)
    ensures Pause(Pause(s)) == Pause(s)
  {
  }

  /** Stops the ticker and restarts the work phase; the pomodoro count and the
      settings are kept. */
  function Reset(s: State): (r: State)
    ensures !r.running && r.isWork && r.remainingSec == PhaseSeconds(r)
    ensures r.workMinutes == s.workMinutes && r.breakMinutes == s.breakMinutes
    ensures r.completed == s.completed && r.notifyOn == s.notifyOn
    ensures Valid(s) ==> Valid(r) && WithinPhase(r)
  {
    Pause(s).(isWork := true, remainingSec := s.workMinutes * 60)
  }

  /** Restores the default settings, then resets; only the pomodoro count
      survives. */
  function ResetSettingsToDefaults(s: State): (r: State)
    ensures r == Initial.(completed := s.completed)
    ensures Valid(s) ==> Valid(r)
  {
    Reset(s.(workMinutes := DefaultWork, breakMinutes := DefaultBreak, notifyOn := DefaultNotify))
  }

  /** `Number(input.value) || previous`: a number field that reads as NaN
      (`None`) or as zero falls back to the previous value. Fractional input is
      not modelled. */
  function NumberOr(input: Option<int>, previous: int): (n: int)
    ensures input.Some? && input.value != 0 ==> n == input.value
    ensures input.None? || input == Some(0) ==> n == previous
  {
    match input
    case Some(v) => if v != 0 then v else previous
    case None => previous
  }

  /** The work-minutes field changed. The countdown follows the new value only
      when the work phase is shown and the timer is paused. */
  function UpdateWork(s: State, input: Option<int>): (r: State)
    ensures r.workMinutes >= 1
    ensures input.Some? && input.value != 0 ==> r.workMinutes == Max(1, input.value)
    ensures s.workMinutes >= 1 && (input.None? || input == Some(0)) ==> r.workMinutes == s.workMinutes
    ensures r.remainingSec == if s.isWork && !s.running then r.workMinutes * 60 else s.remainingSec
    ensures r.(workMinutes := s.workMinutes, remainingSec := s.remainingSec) == s
    ensures Valid(s) ==> Valid(r)
  {
    var n := Max(1, NumberOr(input, s.workMinutes));
    var s' := s.(workMinutes := n);
    if s.isWork && !s.running then s'.(remainingSec := n * 60) else s'
  }

  /** The break-minutes field changed; the mirror image of `UpdateWork`. */
  function UpdateBreak(s: State, input: Option<int>): (r: State)
    ensures r.breakMinutes >= 1
    ensures input.Some? && input.value != 0 ==> r.breakMinutes == Max(1, input.value)
    ensures s.breakMinutes >= 1 && (input.None? || input == Some(0)) ==> r.breakMinutes == s.breakMinutes
    ensures r.remainingSec == if !s.isWork && !s.running then r.breakMinutes * 60 else s.remainingSec
    ensures r.(breakMinutes := s.breakMinutes, remainingSec := s.remainingSec) == s
    ensures Valid(s) ==> Valid(r)
  {
    var n := Max(1, NumberOr(input, s.breakMinutes));
    var s' := s.(breakMinutes := n);
    if !s.isWork && !s.running then s'.(remainingSec := n * 60) else s'
  }

  /** The notification checkbox changed. */
  function SetNotify(s: State, checked: bool): (r: State)
    ensures r.notifyOn == checked && r.(notifyOn := s.notifyOn) == s
  {
    s.(notifyOn := checked)
  }

  /** Editing a duration while the timer runs can leave more time on the
      countdown than the phase now lasts. */
  lemma EditWhileRunningOverrunsPhase()
    ensures var s := State(25, 5, true, 1200, 0, true, true);
            Valid(s) && WithinPhase(s) && !WithinPhase(UpdateWork(s, Some(10)))
  {
  }

  // ---- Ticking for several seconds ----

  /** `n` successive ticks. */
  function Ticks(s: State, n: nat): State
    decreases n
  {
    if n == 0 then s else Ticks(Tick(s), n - 1)
  }

  /** Ticking never reaches a phase boundary early: `n` ticks with at least `n`
      seconds left only count down. */
  lemma {:induction false} TicksCountDown(s: State, n: nat)
    requires n <= s.remainingSec
    ensures Ticks(s, n) == s.(remainingSec := s.remainingSec - n)
    decreases n
  {
    if n > 0 {
      TicksCountDown(Tick(s), n - 1);
    }
  }

  /** The live ticker shows zero for one tick before it switches phase, so a
      phase with `k` seconds left ends after `k + 1` ticks. */
  lemma PhaseEndsOneTickAfterZero(s: State)
    requires s.remainingSec >= 0
    ensures Ticks(s, s.remainingSec) == s.(remainingSec := 0)
    ensures Ticks(s, s.remainingSec + 1) == SwitchPhase(s)
  {
    var k: nat := s.remainingSec;
    var z := s.(remainingSec := 0);
    TicksCountDown(s, k);
    TicksSplit(s, k, 1);
    assert Ticks(z, 1) == Tick(z);
    assert Tick(z) == SwitchPhase(s);
  }

  lemma {:induction false} TicksSplit(s: State, a: nat, b: nat)
    ensures Ticks(s, a + b) == Ticks(Ticks(s, a), b)
    decreases a
  {
    if a > 0 {
      TicksSplit(Tick(s), a - 1, b);
    }
  }

  // ---- Display ----

  /** `Math.floor(remainingSec / 60)`: the whole minutes, rounded down. */
  function MinutesPart(sec: int): (r: int)
    ensures r * 60 <= sec < r * 60 + 60
  {
    sec / 60
  }

  /** `remainingSec % 60` with JavaScript's `%`, whose result takes the sign
      of the dividend. */
  function SecondsPart(sec: int): (r: int)
    ensures sec >= 0 ==> 0 <= r <= 59 && MinutesPart(sec) * 60 + r == sec
    ensures sec < 0 ==> -59 <= r <= 0 && (sec - r) % 60 == 0
  {
    if sec >= 0 then sec % 60 else -((-sec) % 60)
  }

  /** The minutes shown: at least two characters, and for a countdown that is
      not negative, a numeral of the whole minutes padded with zeros to two
      characters and no further. */
  function MinutesText(s: State): (r: string)
    ensures |r| >= 2
    ensures s.remainingSec >= 0 ==>
              Text.AllDigits(r) && Text.DecimalValue(r) == MinutesPart(s.remainingSec)
    ensures s.remainingSec >= 0 && |r| > 2 ==> r[0] != '0'
  {
    var digits := Text.IntToString(MinutesPart(s.remainingSec));
    var r := Text.PadStart(digits, 2, '0');
    assert s.remainingSec >= 0 ==>
             Text.AllDigits(r) && Text.DecimalValue(r) == MinutesPart(s.remainingSec) by {
      if s.remainingSec >= 0 {
        Text.ZeroPadValue(digits, 2);
      }
    }
    r
  }

  /** The seconds shown: at least two characters, and for a countdown that is
      not negative, exactly two digits whose value is the seconds part. */
  function SecondsText(s: State): (r: string)
    ensures |r| >= 2
    ensures s.remainingSec >= 0 ==>
              |r| == 2 && Text.AllDigits(r) && Text.DecimalValue(r) == SecondsPart(s.remainingSec)
  {
    var sec := SecondsPart(s.remainingSec);
    var digits := Text.IntToString(sec);
    var r := Text.PadStart(digits, 2, '0');
    assert s.remainingSec >= 0 ==>
             |r| == 2 && Text.AllDigits(r) && Text.DecimalValue(r) == sec by {
      if s.remainingSec >= 0 {
        Text.ZeroPadValue(digits, 2);
        Text.SmallNumeralLength(sec);
      }
    }
    r
  }

  /** Reading the displayed `mm:ss` back gives the countdown: the seconds are
      exactly two digits and the minutes at least two. */
  lemma DisplayRoundTrip(s: State)
    requires s.remainingSec >= 0
    ensures Text.AllDigits(MinutesText(s)) && Text.AllDigits(SecondsText(s))
    ensures |SecondsText(s)| == 2 && |MinutesText(s)| >= 2
    ensures Text.DecimalValue(MinutesText(s)) * 60 + Text.DecimalValue(SecondsText(s)) == s.remainingSec
  {
  }
}

=== FILE: todos.dfy ===
/** The todo list page: a list of items that can be added, ticked off,
    renamed, removed and filtered by state and keyword. Every operation is a
    pure function of the list (and of the input fields where it reads them);
    the random id and the clock of a new item are parameters. */
module Todos {
  import opened Wrappers
  import Text
  import opened Seqs

  datatype Todo = Todo(id: string, title: string, done: bool, createdAt: int)

  /** The state selector above the list. */
  datatype StateFilter = All | Active | Done

  /** The component's signals: the list, the text field (used both for new
      items and for renaming), the item being renamed, the search keyword and
      the state selector. */
  datatype State = State(
    todos: seq<Todo>,
    newTitle: string,
    editingId: Option<string>,
    keyword: string,
    filter: StateFilter)

  const Initial := State([], "", None, "", All)

  /** Every title is non-blank and has no white space at either end: what
      adding and renaming store. */
  predicate WellFormed(todos: seq<Todo>) {
    forall i :: 0 <= i < |todos| ==> todos[i].title != [] && Text.Trimmed(todos[i].title)
  }

  predicate UniqueIds(todos: seq<Todo>) {
    forall i, j :: 0 <= i < j < |todos| ==> todos[i].id != todos[j].id
  }

  // ---- Counts ----

  /** The items not done yet; none are left exactly when every item is done. */
  function LeftCount(todos: seq<Todo>): (n: nat)
    ensures n <= |todos|
    ensures n == 0 <==> forall i :: 0 <= i < |todos| ==> todos[i].done
  {
    var notDone := (t: Todo) => !t.done;
    KeepEmptyIff(todos, notDone);
    |Keep(todos, notDone)|
  }

  /** The items done; there are none exactly when no item is done. */
  function CompletedCount(todos: seq<Todo>): (n: nat)
    ensures n <= |todos|
    ensures n == 0 <==> forall i :: 0 <= i < |todos| ==> !todos[i].done
  {
    var isDone := (t: Todo) => t.done;
    KeepEmptyIff(todos, isDone);
    |Keep(todos, isDone)|
  }

  /** Every item is either left or completed. */
  lemma CountsPartition(todos: seq<Todo>)
    ensures LeftCount(todos) + CompletedCount(todos) == |todos|
  {
    KeepComplement(todos, (t: Todo) => !t.done, (t: Todo) => t.done);
  }

  /** The check-all flag: the list is non-empty and no item is left, that is,
      every item is done. */
  function AllChecked(todos: seq<Todo>): (r: bool)
    ensures r <==> |todos| > 0 && forall i :: 0 <= i < |todos| ==> todos[i].done
  {
    |todos| > 0 && LeftCount(todos) == 0
  }

  // ---- Editing the list ----

  /** Appends a new item titled with the trimmed text field, unless that is
      blank, in which case nothing changes (the field is not cleared either). */
  function Add(st: State, freshId: string, now: int): (r: State)
    ensures Text.AllSpace(st.newTitle) ==> r == st
    ensures !Text.AllSpace(st.newTitle) ==>
              && r.todos == st.todos + [Todo(freshId, Text.Trim(st.newTitle), false, now)]
              && r.newTitle == ""
              && r.(todos := st.todos, newTitle := st.newTitle) == st
    ensures WellFormed(st.todos) ==> WellFormed(r.todos)
  {
    var title := Text.Trim(st.newTitle);
    if title == [] then st
    else
      var item := Todo(freshId, title, false, now);
      AppendWellFormed(st.todos, item);
      st.(todos := st.todos + [item], newTitle := "")
  }

  lemma AppendWellFormed(todos: seq<Todo>, t: Todo)
    requires t.title != [] && Text.Trimmed(t.title)
    ensures WellFormed(todos) ==> WellFormed(todos + [t])
  {
    assert forall i :: 0 <= i < |todos| ==> (todos + [t])[i] == todos[i];
  }

  /** Adding a non-blank item adds one to the items left and none to the
      completed ones. */
  lemma AddCounts(st: State, freshId: string, now: int)
    requires !Text.AllSpace(st.newTitle)
    ensures LeftCount(Add(st, freshId, now).todos) == LeftCount(st.todos) + 1
    ensures CompletedCount(Add(st, freshId, now).todos) == CompletedCount(st.todos)
  {
    var item := Todo(freshId, Text.Trim(st.newTitle), false, now);
    KeepAppend(st.todos, [item], (t: Todo) => !t.done);
    KeepAppend(st.todos, [item], (t: Todo) => t.done);
  }

  /** Flips `done` on the items with the given id. */
  function Toggle(todos: seq<Todo>, id: string): (r: seq<Todo>)
    ensures |r| == |todos|
    ensures forall i :: 0 <= i < |r| ==>
              && r[i].(done := todos[i].done) == todos[i]
              && r[i].done == (if todos[i].id == id then !todos[i].done else todos[i].done)
    ensures WellFormed(todos) ==> WellFormed(r)
  {
    seq(|todos|, i requires 0 <= i < |todos| =>
      if todos[i].id == id then todos[i].(done := !todos[i].done) else todos[i])
  }

  /** Toggling the same item twice restores the list. */
  lemma ToggleTwice(todos: seq<Todo>, id: string)
    ensures Toggle(Toggle(todos, id), id) == todos
  {
  }

  /** Drops the items with the given id; the others keep their order. */
  function Remove(todos: seq<Todo>, id: string): (r: seq<Todo>)
    ensures forall i :: 0 <= i < |r| ==> r[i].id != id && r[i] in todos
    ensures SubseqOf(r, todos)
    ensures forall t: Todo :: t.id != id ==> multiset(r)[t] == multiset(todos)[t]
    ensures (forall i :: 0 <= i < |todos| ==> todos[i].id != id) ==> r == todos
    ensures WellFormed(todos) ==> WellFormed(r)
  {
    var p := (t: Todo) => t.id != id;
    KeepIsSubseq(todos, p);
    assert forall t: Todo :: t.id != id ==> multiset(Keep(todos, p))[t] == multiset(todos)[t] by {
      forall t: Todo | t.id != id {
        KeepMultiplicity(todos, p, t);
      }
    }
    assert (forall i :: 0 <= i < |todos| ==> todos[i].id != id) ==> Keep(todos, p) == todos by {
      if forall i :: 0 <= i < |todos| ==> todos[i].id != id {
        KeepAllMatch(todos, p);
      }
    }
    Keep(todos, p)
  }

  /** Keeps exactly the items not done, in their order. */
  function ClearCompleted(todos: seq<Todo>): (r: seq<Todo>)
    ensures forall i :: 0 <= i < |r| ==> !r[i].done && r[i] in todos
    ensures SubseqOf(r, todos)
    ensures forall t: Todo :: !t.done ==> multiset(r)[t] == multiset(todos)[t]
    ensures CompletedCount(r) == 0 && LeftCount(r) == LeftCount(todos)
    ensures WellFormed(todos) ==> WellFormed(r)
  {
    var p := (t: Todo) => !t.done;
    var r := Keep(todos, p);
    KeepIsSubseq(todos, p);
    assert forall t: Todo :: !t.done ==> multiset(r)[t] == multiset(todos)[t] by {
      forall t: Todo | !t.done {
        KeepMultiplicity(todos, p, t);
      }
    }
    KeepNoneMatch(r, (t: Todo) => t.done);
    KeepAllMatch(r, p);
    r
  }

  /** Marks every item done, or, when every item already is, none. */
  function ToggleAll(todos: seq<Todo>): (r: seq<Todo>)
    ensures |r| == |todos|
    ensures forall i :: 0 <= i < |r| ==> r[i] == todos[i].(done := !AllChecked(todos))
    ensures WellFormed(todos) ==> WellFormed(r)
  {
    var allDone := AllChecked(todos);
    seq(|todos|, i requires 0 <= i < |todos| => todos[i].(done := !allDone))
  }

  /** The check-all box flips: afterwards every item is done exactly when not
      every item was done before. */
  lemma ToggleAllFlips(todos: seq<Todo>)
    requires |todos| > 0
    ensures AllChecked(ToggleAll(todos)) == !AllChecked(todos)
  {
  }

  // ---- Renaming ----

  /** The test `find` applies when looking an item up by id. */
  function HasId(id: string): Todo -> bool {
    (t: Todo) => t.id == id
  }

  /** Opens an item for renaming: its title goes into the text field. An
      unknown id changes nothing. */
  function StartEdit(st: State, id: string): (r: State)
    ensures (forall i :: 0 <= i < |st.todos| ==> st.todos[i].id != id) ==> r == st
    ensures (exists i :: 0 <= i < |st.todos| && st.todos[i].id == id) ==>
              var i := FindFirst(st.todos, HasId(id)).value;
              r == st.(editingId := Some(id), newTitle := st.todos[i].title)
  {
    match FindFirst(st.todos, HasId(id))
    case None => st
    case Some(i) => st.(editingId := Some(id), newTitle := st.todos[i].title)
  }

  /** Gives every item with the given id a new title. */
  function Rename(todos: seq<Todo>, id: string, title: string): (r: seq<Todo>)
    ensures |r| == |todos|
    ensures forall i :: 0 <= i < |r| ==>
              r[i] == if todos[i].id == id then todos[i].(title := title) else todos[i]
    ensures WellFormed(todos) && title != [] && Text.Trimmed(title) ==> WellFormed(r)
  {
    seq(|todos|, i requires 0 <= i < |todos| =>
      if todos[i].id == id then todos[i].(title := title) else todos[i])
  }

  /** Confirms a rename with the trimmed text field. A blank title removes the
      item instead and leaves the fields as they are. */
  function ConfirmEdit(st: State, id: string): (r: State)
    ensures Text.AllSpace(st.newTitle) ==> r == st.(todos := Remove(st.todos, id))
    ensures !Text.AllSpace(st.newTitle) ==>
              && r.todos == Rename(st.todos, id, Text.Trim(st.newTitle))
              && r.editingId.None? && r.newTitle == ""
              && r.keyword == st.keyword && r.filter == st.filter
    ensures WellFormed(st.todos) ==> WellFormed(r.todos)
  {
    var title := Text.Trim(st.newTitle);
    if title == [] then st.(todos := Remove(st.todos, id))
    else st.(todos := Rename(st.todos, id, title), editingId := None, newTitle := "")
  }

  /** Abandons a rename. */
  function CancelEdit(st: State): (r: State)
    ensures r.editingId.None? && r.newTitle == ""
    ensures r.todos == st.todos && r.keyword == st.keyword && r.filter == st.filter
  {
    st.(editingId := None, newTitle := "")
  }

  /** Renaming the only item with an id to its own title changes nothing. */
  lemma RenameToSameTitle(todos: seq<Todo>, k: nat, id: string)
    requires UniqueIds(todos) && k < |todos| && todos[k].id == id
    ensures Rename(todos, id, todos[k].title) == todos
  {
    var r := Rename(todos, id, todos[k].title);
    forall i | 0 <= i < |todos|
      ensures r[i] == todos[i]
    {
      if todos[i].id == id {
        assert i == k;
      }
    }
  }

  /** Opening an item and confirming without typing leaves the list as it was. */
  lemma EditUnchangedKeepsList(st: State, id: string)
    requires WellFormed(st.todos) && UniqueIds(st.todos)
    requires exists i :: 0 <= i < |st.todos| && st.todos[i].id == id
    ensures ConfirmEdit(StartEdit(st, id), id).todos == st.todos
  {
    var found := FindFirst(st.todos, HasId(id));
    assert found.Some? by {
      var j :| 0 <= j < |st.todos| && st.todos[j].id == id;
      assert HasId(id)(st.todos[j]);
    }
    var k := found.value;
    assert st.todos[k].id == id by {
      assert HasId(id)(st.todos[k]);
    }
    var title := st.todos[k].title;
    var e := st.(editingId := Some(id), newTitle := title);
    assert StartEdit(st, id) == e;
    assert Text.Trim(title) == title && !Text.AllSpace(title) by {
      assert title != [] && Text.Trimmed(title);
    }
    RenameToSameTitle(st.todos, k, id);
  }

  // ---- The filtered view ----

  /** The keyword as the search compares it: the keyword cut free of the
      white space around it, then lower-cased. It is empty exactly when the
      keyword is blank, and holds no ASCII capital. */
  function SearchKey(keyword: string): (r: string)
    ensures |r| <= |keyword|
    ensures r == [] <==> Text.AllSpace(keyword)
    ensures forall i :: 0 <= i < |r| ==> !('A' <= r[i] <= 'Z')
    ensures exists t :: Text.CutFromSpace(t, keyword) && Text.Trimmed(t) && r == Text.Lower(t)
  {
    var t := Text.Trim(keyword);
    assert Text.CutFromSpace(t, keyword) && Text.Trimmed(t);
    Text.Lower(t)
  }

  predicate ByText(key: string, t: Todo) {
    key == [] || Text.Contains(Text.Lower(t.title), key)
  }

  predicate ByState(f: StateFilter, t: Todo) {
    match f
    case All => true
    case Active => !t.done
    case Done => t.done
  }

  /** The test the view applies to each item: a blank key admits every
      title, "active" admits only items not done, "done" only items done. */
  function Shown(key: string, f: StateFilter): (r: Todo -> bool)
    ensures forall t: Todo :: r(t) <==>
              && (key == [] || Text.Contains(Text.Lower(t.title), key))
              && (f == Active ==> !t.done)
              && (f == Done ==> t.done)
  {
    (t: Todo) => ByText(key, t) && ByState(f, t)
  }

  /** The items shown: those matching both the keyword and the state
      selector, in list order. */
  function Filtered(st: State): (r: seq<Todo>)
    ensures SubseqOf(r, st.todos)
    ensures forall i :: 0 <= i < |r| ==>
              ByText(SearchKey(st.keyword), r[i]) && ByState(st.filter, r[i]) && r[i] in st.todos
    ensures forall t :: ByText(SearchKey(st.keyword), t) && ByState(st.filter, t) ==>
              multiset(r)[t] == multiset(st.todos)[t]
  {
    var key := SearchKey(st.keyword);
    var p := Shown(key, st.filter);
    assert forall t :: p(t) == (ByText(key, t) && ByState(st.filter, t));
    KeepIsSubseq(st.todos, p);
    KeepMatchingMultiplicity(st.todos, p);
    Keep(st.todos, p)
  }

  /** With the selector on "all" and a blank keyword the whole list shows. */
  lemma FilteredShowsAll(st: State)
    requires st.filter == All && Text.AllSpace(st.keyword)
    ensures Filtered(st) == st.todos
  {
    var key := SearchKey(st.keyword);
    assert key == [];
    KeepAllMatch(st.todos, (t: Todo) => ByText(key, t) && ByState(st.filter, t));
  }

  /** For a fixed keyword, the "active" and the "done" views split the "all"
      view between them. */
  lemma FilteredViewsPartition(st: State)
    ensures |Filtered(st.(filter := Active))| + |Filtered(st.(filter := Done))|
            == |Filtered(st.(filter := All))|
  {
    var key := SearchKey(st.keyword);
    var text := (t: Todo) => ByText(key, t);
    var all := (t: Todo) => ByText(key, t) && ByState(All, t);
    var active := (t: Todo) => ByText(key, t) && ByState(Active, t);
    var done := (t: Todo) => ByText(key, t) && ByState(Done, t);
    var notDone := (t: Todo) => !t.done;
    var isDone := (t: Todo) => t.done;
    KeepCongruent(st.todos, all, text);
    KeepKeep(st.todos, text, notDone, active);
    KeepKeep(st.todos, text, isDone, done);
    KeepComplement(Keep(st.todos, text), notDone, isDone);
  }

  /** The page opens on an empty list with nothing typed: nothing is left,
      nothing is completed, the check-all box is clear and the view is empty. */
  lemma InitialIsEmpty()
    ensures WellFormed(Initial.todos) && UniqueIds(Initial.todos)
    ensures LeftCount(Initial.todos) == 0 && CompletedCount(Initial.todos) == 0
    ensures !AllChecked(Initial.todos) && Filtered(Initial) == []
  {
  }
}

=== FILE: weather.dfy ===
/** The weather page's selection logic: classifying a weather code into a
    display theme, showing temperatures in Celsius or Fahrenheit, and picking
    a city from the fixed list. Fetching the data is not modelled; the fetched
    values are fields of the state. */
module Weather {
  import opened Wrappers
  import opened Seqs

  datatype Theme = Sunny | Cloudy | Fog | Rain | Snow | Storm | Default

  /** The code ranges of each theme; `Default` has none of its own. */
  predicate InBand(t: Theme, code: int) {
    match t
    case Sunny => code == 0
    case Cloudy => 1 <= code <= 3
    case Fog => 45 <= code <= 48
    case Rain => (51 <= code <= 67) || (80 <= code <= 82)
    case Snow => 71 <= code <= 77
    case Storm => code >= 95
    case Default => false
  }

  /** No code lies in two bands, so the order in which the classifier tries
      them does not matter. */
  lemma BandsDisjoint(t: Theme, u: Theme, code: int)
    requires InBand(t, code) && InBand(u, code)
    ensures t == u
  {
  }

  /** The classifier: the first band that contains the code, tried in the
      order sunny, cloudy, fog, rain, snow, storm; `Default` for every other
      code. */
  function CodeToTheme(code: int): (r: Theme)
    ensures r != Default ==> InBand(r, code)
    ensures r == Default <==> forall t: Theme :: !InBand(t, code)
  {
    var r :=
      if code == 0 then Sunny
      else if code in [1, 2, 3] then Cloudy
      else if code >= 45 && code <= 48 then Fog
      else if (code >= 51 && code <= 67) || (code >= 80 && code <= 82) then Rain
      else if code >= 71 && code <= 77 then Snow
      else if code >= 95 then Storm
      else Default;
    assert code in [1, 2, 3] <==> 1 <= code <= 3;
    assert r != Default ==> InBand(r, code);
    r
  }

  /** The classifier and the band table agree, in both directions. */
  lemma ThemeExactlyBand(code: int, t: Theme)
    requires t != Default
    ensures CodeToTheme(code) == t <==> InBand(t, code)
  {
    if InBand(t, code) && CodeToTheme(code) != t {
      if CodeToTheme(code) != Default {
        BandsDisjoint(t, CodeToTheme(code), code);
      }
    }
  }

  datatype Unit = C | F

  /** A fixed city; the coordinates used for fetching are not modelled. */
  datatype City = City(name: string)

  const Cities: seq<City> := [
    City("臺北"), City("新北"), City("基隆"), City("桃園"), City("新竹市"), City("新竹縣"),
    City("苗栗"), City("臺中"), City("彰化"), City("南投"), City("雲林"), City("嘉義市"),
    City("嘉義縣"), City("臺南"), City("高雄"), City("屏東"), City("宜蘭"), City("花蓮"),
    City("臺東"), City("澎湖"), City("金門"), City("連江")
  ]

  /** The page's signals. Temperatures are already rounded to whole degrees
      Celsius; `None` is a value not fetched yet. */
  datatype State = State(
    unit: Unit,
    selected: City,
    tempC: Option<int>,
    feelC: Option<int>,
    code: Option<int>)

  /** The test `find` applies when looking a city up by name. */
  function Named(name: string): City -> bool {
    (c: City) => c.name == name
  }

  /** The page opens on 臺中, which is in the list, so the initial lookup
      cannot come back empty. */
  lemma DefaultCityListed()
    ensures FindFirst(Cities, Named("臺中")) == Some(7)
    ensures Initial.selected == Cities[FindFirst(Cities, Named("臺中")).value]
  {
    var p := Named("臺中");
    assert p(Cities[7]);
    assert !p(Cities[0]) && !p(Cities[1]) && !p(Cities[2]) && !p(Cities[3]);
    assert !p(Cities[4]) && !p(Cities[5]) && !p(Cities[6]);
    FindFirstAt(Cities, p, 7);
  }

  const Initial := State(C, Cities[7], None, None, None)

  function Other(u: Unit): Unit {
    if u == C then F else C
  }

  /** Switches the unit between Celsius and Fahrenheit. */
  function ToggleUnit(st: State): (r: State)
    ensures r.unit != st.unit
    ensures r.(unit := st.unit) == st
  {
    st.(unit := Other(st.unit))
  }

  lemma ToggleUnitTwice(st: State)
    ensures ToggleUnit(ToggleUnit(st)) == st
  {
  }

  /** The first city of `cities` with the given name, or `current` when none
      has it. */
  function SelectNamed(cities: seq<City>, current: City, name: string): (c: City)
    ensures (forall i :: 0 <= i < |cities| ==> cities[i].name != name) ==> c == current
    ensures (exists i :: 0 <= i < |cities| && cities[i].name == name) ==>
              c.name == name && c == cities[FindFirst(cities, Named(name)).value]
  {
    var found := FindFirst(cities, Named(name));
    assert forall i :: 0 <= i < |cities| ==> Named(name)(cities[i]) == (cities[i].name == name);
    if found.None? then current else cities[found.value]
  }

  /** Selects the first listed city with the given name; an unknown name
      keeps the current selection. */
  function ChangeCity(st: State, name: string): (r: State)
    ensures (forall i :: 0 <= i < |Cities| ==> Cities[i].name != name) ==> r == st
    ensures (exists i :: 0 <= i < |Cities| && Cities[i].name == name) ==>
              && r.selected.name == name
              && r.selected == Cities[FindFirst(Cities, Named(name)).value]
              && r.(selected := st.selected) == st
  {
    st.(selected := SelectNamed(Cities, st.selected, name))
  }

  /** `Math.round(x)`, which is `floor(x + 1/2)`, for the rational `num / den`. */
  function RoundHalfUp(num: int, den: int): (r: int)
    requires den > 0
    ensures 2 * den * r <= 2 * num + den < 2 * den * r + 2 * den
  {
    (2 * num + den) / (2 * den)
  }

  /** A temperature in the chosen unit: Celsius as fetched, or
      `Math.round(v * 9 / 5 + 32)` in Fahrenheit. The result is the integer
      nearest to the exact Fahrenheit value, which is never halfway between
      two integers. */
  function Convert(unit: Unit, v: Option<int>): (r: Option<int>)
    ensures r.None? <==> v.None?
    ensures unit == C ==> r == v
    ensures unit == F && v.Some? ==>
              var exact := v.value as real * 9.0 / 5.0 + 32.0;
              exact - 0.5 < r.value as real < exact + 0.5
  {
    match v
    case None => None
    case Some(c) =>
      if unit == C then Some(c)
      else
        var r := RoundHalfUp(9 * c + 160, 5);
        assert 10 * r <= 18 * c + 325 < 10 * r + 10;
        assert 10 * r != 18 * c + 325 by {
          assert (18 * c + 325) % 2 == 1;
        }
        Some(r)
  }

  lemma ConvertExamples()
    ensures Convert(F, Some(0)) == Some(32)
    ensures Convert(F, Some(100)) == Some(212)
    ensures Convert(F, Some(-40)) == Some(-40)
    ensures Convert(F, Some(37)) == Some(99)
  {
  }

  /** The temperature shown: missing until fetched, as fetched in Celsius,
      and the nearest whole degree in Fahrenheit. */
  function Temp(st: State): (r: Option<int>)
    ensures r.None? <==> st.tempC.None?
    ensures st.unit == C ==> r == st.tempC
    ensures st.unit == F && st.tempC.Some? ==>
              var exact := st.tempC.value as real * 9.0 / 5.0 + 32.0;
              exact - 0.5 < r.value as real < exact + 0.5
  {
    Convert(st.unit, st.tempC)
  }

  /** The felt temperature shown, converted in the same way. */
  function Feel(st: State): (r: Option<int>)
    ensures r.None? <==> st.feelC.None?
    ensures st.unit == C ==> r == st.feelC
    ensures st.unit == F && st.feelC.Some? ==>
              var exact := st.feelC.value as real * 9.0 / 5.0 + 32.0;
              exact - 0.5 < r.value as real < exact + 0.5
  {
    Convert(st.unit, st.feelC)
  }

  /** The theme shown: a code not fetched yet counts as -1. */
  function Status(st: State): (r: Theme)
    ensures st.code.None? ==> r == Default
    ensures st.code.Some? ==> r == CodeToTheme(st.code.value)
  {
    CodeToTheme(st.code.GetOr(-1))
  }
}

=== FILE: wrappers.dfy ===
/** The Option type used throughout the model for JavaScript values that may be
    `null` or `undefined`. */
module Wrappers {

  datatype Option<+T> = None | Some(value: T) {

    /** Returns the value in Some, or `default` for None (JavaScript's `??`). */
    function GetOr(default: T): T {
      match this
      case Some(v) => v
      case None => default
    }
  }
}
